=== FILE: README.md ===
# runn `new` / `append` command, modelled in Dafny

This project models the `new` command of runn (alias `append`), which
creates a runbook or appends steps to one. The command runs in four stages.

1. **Collect steps.** The positional arguments form one step. With no
   arguments, each line of standard input forms a one-token step, with the
   lines split the way `bufio.ScanLines` splits them. With no arguments on
   an interactive terminal, the command refuses to run.
2. **Start the runbook.** When `--out` names an existing file, the runbook
   is loaded from it, and a non-empty `--desc` replaces its description.
   Otherwise the command starts a fresh runbook described by `--desc`.
3. **Append.** The steps are appended one by one. The first step the
   runbook rejects stops the command.
4. **Output.** `--out` is created or truncated only now, or standard output
   is used. Then one of two things happens:
   - the runbook is encoded into the output;
   - with `--and-run`, `runAndCapture` runs instead. It stages the runbook
     as `new.yml` in a fresh temporary directory and lets the engine run it
     with capture. It then copies every captured file except `new.yml`, in
     name order, to the output, stopping at the first read or write that
     fails. `RemoveAll` of the temporary directory is called on every return path.

The model has seven modules.

| module | what it holds |
|---|---|
| `Types` | Values shared by all modules: bytes, the filesystem, errors, and the answers the operating system gives. |
| `Tokenizer` | The line scanner. Specified by `ScanLines`; implemented by the loop `ArgsListFromStdin`. |
| `InputSource` | Choosing where the steps come from. |
| `Runbooks` | The runbook as a class with fields, plus its append fold `AppendAll`. |
| `DirListing` | `os.ReadDir`: every entry name once, sorted by name. |
| `Sandbox` | The `Host` class, holding the filesystem and standard output. Also `runAndCapture` with its merge loop, and its specification `Captured`. |
| `NewCommand` | The command's `RunE` as a method, specified by `Prepared` and `Emitted`. |

The filesystem is a map from directory path to a map from file name to
bytes. Standard output is the byte string written to it so far.

## Model

| member | source | states |
|---|---|---|
| Tokenizer.ScanLines | cmd/new.go:190-193 | Standard input is split into lines the way `bufio.ScanLines` splits it. It gives no step exactly when the input is empty. |
| Tokenizer.ArgsListFromStdin | cmd/new.go:188-195 | The step list is exactly the scanned lines, in order. Each becomes a step holding the whole line as its only token. |
| Tokenizer.ScanLinesCount | cmd/new.go:190-193 | The number of steps read from standard input is the number of line feeds, plus one when the input ends in an unterminated line. Empty input gives no step. |
| Tokenizer.ScanLinesRoundTrip | cmd/new.go:190-193 | Lines that each end in a line feed scan back to exactly those lines. A final non-empty unterminated line still yields its own step. |
| Tokenizer.ScanLinesLine | cmd/new.go:190-193 | A line ended by `\n` yields one token without a trailing `\r`. A line ended by `\r\n` yields the line itself. Scanning then continues after the line feed. |
| Tokenizer.ScanFromHasNoLineFeed | cmd/new.go:190-193 | No token read from standard input contains a line feed. |
| Tokenizer.ScanFromShift | cmd/new.go:190-193 | How the scanner splits the rest of the input does not depend on what came before the scan position. |
| InputSource.SelectSource | cmd/new.go:53-60 | No arguments on a terminal is refused. No arguments otherwise reads standard input. Any arguments are used as given. |
| InputSource.StepList | cmd/new.go:53-60 | It errs exactly when there are no arguments and standard input is a terminal. Every step has at least one token. Steps read from standard input have exactly one token each. |
| InputSource.CollectSteps | cmd/new.go:53-60 | It errs exactly when there are no arguments and standard input is a terminal, with the message "interactive mode is planned, but not yet implemented". Arguments give exactly one step, equal to the arguments. Otherwise each line of standard input is one single-token step. |
| InputSource.PipedLines | cmd/new.go:53-60 | Piping terminated lines, with or without an unterminated last line, gives exactly those lines as steps. |
| Runbooks.Runbook.constructor | cmd/new.go:62 | A fresh runbook has the given description and no steps. |
| Runbooks.Runbook.Load | cmd/new.go:70 | A loaded runbook is the stored document. |
| Runbooks.Runbook.AppendStep | cmd/new.go:80-82 | An accepted step is added at the end and nothing else changes. A rejected step is reported with its tokens and leaves the runbook unchanged. |
| Runbooks.AppendAll | cmd/new.go:79-83 | The steps are appended in order, stopping at the first step the runbook rejects. A rejection names a step of the list that the rule refuses for the runbook built before it. The description never changes. |
| Runbooks.AppendAllMeaning | cmd/new.go:79-83 | The loop succeeds exactly when every step is accepted by the runbook built before it. On success the loaded steps come first, then the new ones in order. On failure it stops at a step the rule rejects, every earlier step is accepted and already appended, and the description never changes. |
| Runbooks.AppendAllStopsAt | cmd/new.go:79-83 | If every step before step i is accepted and step i is rejected, the loop stops at i with exactly the earlier steps appended. |
| Runbooks.AppendAllCompletes | cmd/new.go:79-83 | If every step is accepted, the result is the loaded steps followed by all new steps. |
| Runbooks.AppendAllConcat | cmd/new.go:79-83 | Appending `a` and then `b` equals appending `a + b`. A rejection inside `b` is reported at its index shifted by the length of `a`. |
| NewCommand.Seed | cmd/new.go:62-77 | With no file at `--out`, the runbook is fresh, described by `--desc`, with no steps. A stored file gives the parsed runbook's steps, and its description unless `--desc` is non-empty. Only an open or a parse error can fail, and only when the file exists. |
| NewCommand.LoadRunbook | cmd/new.go:62-77 | Returns a fresh runbook, or the one stored at an existing `--out`, with the description replaced by a non-empty `--desc`. Fails with the open or parse error of a stored file. The result matches `Seed`. |
| NewCommand.AppendSteps | cmd/new.go:79-83 | Leaves the runbook as `AppendAll` says. Reports the tokens of the first rejected step, with the steps before it kept. |
| NewCommand.Output | cmd/new.go:84-117 | A failing create of `--out` returns that error and changes nothing. Otherwise `--out` is truncated first. Then either the encoded runbook is written to it (an encoder error leaves it empty), or it gets what `runAndCapture` writes. |
| NewCommand.Run | cmd/new.go:47-118 | An interactive refusal, a load or parse error, a rejected step, or a create failure leaves the filesystem and standard output unchanged and returns that error. Otherwise the outcome and new state are `Emitted` on the assembled runbook. |
| NewCommand.AppendToStored | cmd/new.go:62-83 | Suppose `--out` holds the encoding of the runbook one run built, and the parser reads that encoding back. Then the next run on the same file builds what one run with both step lists concatenated would build. This is shown for a second run whose `--desc` is empty or equal to the first run's; a different non-empty `--desc` is not covered. |
| NewCommand.AppendTwice | cmd/new.go:62-115 | Suppose every encoding parses back to the runbook it came from. A first run without `--and-run` succeeds, and a second run uses the same `--out` file, starting from the state the first run's contract (`Emitted`) leaves. The second run then builds what one run with both step lists concatenated would build. |
| NewCommand.EmittedFrame | cmd/new.go:84-117 | Output changes only the `--out` file (and only its contents), or only standard output. Every other file and directory is unchanged, and the temporary directory is gone. |
| Sandbox.OpenedFrame | cmd/new.go:84-115 | Creating `--out` and then setting its contents changes only that file, keeping every other file of its directory and every other directory, and leaves standard output alone. With no `--out`, only standard output changes. |
| NewCommand.EncodeFailureTruncates | cmd/new.go:87-114 | Without `--and-run`, an encoder error still leaves `--out` empty, so a runbook loaded from it is lost. |
| DirListing.ReadDir | cmd/new.go:169-172 | Lists each entry name of the directory exactly once, sorted by name. |
| DirListing.ListingUnique | cmd/new.go:169-173 | Two sorted listings of the same names are equal, so the merge order is fixed by the names alone. |
| Sandbox.Host.Create | cmd/new.go:87 | `os.Create` leaves the output file existing and empty, and nothing else changes. |
| Sandbox.Host.Write | cmd/new.go:179 | A write appends the bytes to the output and changes nothing else. |
| Sandbox.Host.Merge | cmd/new.go:173-183 | The loop skips `new.yml`. It stops at the first entry whose read or write fails, with that error. Otherwise it succeeds. The output gains exactly the captured bytes of the entries before the stop point, in order. |
| Sandbox.Host.Capture | cmd/new.go:169-183 | The entries are listed in name order and merged. Only the output changes outside the temporary directory. |
| Sandbox.Host.InSandbox | cmd/new.go:138-183 | The first failing step returns its error: creating `new.yml`, encoding, the engine, or `ReadDir`. Nothing outside the temporary directory has changed at that point. On success the run's directory is merged into the output. |
| Sandbox.Host.RunAndCapture | cmd/new.go:131-186 | The directory is staged, run and merged as above. `RemoveAll` of the temporary directory is called on every return path and modelled as succeeding: after a setup failure the state is exactly the old one, and after the merge only the output has changed. |
| Sandbox.SetupError | cmd/new.go:133-171 | `runAndCapture` gets past its setup exactly when MkdirTemp, creating `new.yml`, encoding, the engine and `ReadDir` all succeed. They are tried in that order: a failing MkdirTemp is reported before anything else, and the engine is reached only with an encoded runbook. |
| Sandbox.CapturedStep | cmd/new.go:173-183 | `Captured` is the merge's specification. Merging one more entry appends that entry's bytes, or nothing when the entry is `new.yml`. |
| Sandbox.CapturedConcat | cmd/new.go:173-183 | Merging two lists of entries one after the other gives the same bytes as merging their concatenation. |
| Sandbox.CapturedPrefix | cmd/new.go:173-183 | What a merge that stopped early has written is a prefix of the full merge. |
| Sandbox.CapturedIgnoresStaged | cmd/new.go:174 | The contents of `new.yml` never reach the output. |
| Sandbox.CapturedNothing | cmd/new.go:173-183 | When the engine captured no file, nothing is written. |
| Sandbox.CapturedDependsOnRunOnly | cmd/new.go:149-183 | After a successful run, the bytes written depend only on the files the engine captured. They do not depend on the staged runbook's bytes, or on which listing `os.ReadDir` returned. |

## Left out

- Command wiring is not modelled: cobra, the `init` registration, and the global flags struct. The flags the command reads are the parameters `Flags(desc, out, andRun)`.
- The gRPC flags (`--grpc-no-tls`, `--grpc-proto`, `--grpc-import-path`), the scope option and the context are not modelled. They only configure the engine, which is a parameter.
- `isatty.IsTerminal` is not called. Whether standard input is a terminal is the input `stdinIsTerminal`.
- Standard input is a complete string. The scanner's 64 KiB token limit and read errors are not modelled: either one ends the step list early in the source.
- Library internals are not modelled: `runn.NewRunbook`, `runn.ParseRunbook`, the step grammar behind `rb.AppendStep`, the yaml encoder, and the engine (`runn.New`, `oo.Run` and its capture). They are the function parameters `parse`, `stepOk`, `encode` and `engine`. The engine reports success or failure together with the files its capture added.
- An encoder failure writes nothing. A partial write before the error is not modelled. A failing write of the encoded runbook to `--out` or standard output is not a separate answer of the operating system: it is folded into `encode` returning nothing. So a failing output is modelled as depending on the runbook, and with `--and-run` the same `encode` answer also decides whether `new.yml` can be written.
- Operating-system answers are fixed in advance in an `Os` record, not produced by a real filesystem. This covers failing open, create, MkdirTemp, ReadDir, ReadFile and write calls, and the name MkdirTemp picks. The model requires that name to be fresh. A failing write is modelled as writing nothing: the source's `o.Write` in the merge may write part of an entry's bytes before it fails, and that partial write is not modelled.
- `os.Stat` errors other than a missing file are not modelled. The source treats every Stat error as "no file" and starts a fresh runbook; the model only has missing files.
- `filepath.Clean` and `filepath.Join` are not modelled. `--out` arrives already split into directory and file name.
- File permissions are not modelled. A refused create and a missing parent directory both appear only as a create failure.
- The deferred `Close` calls, their `os.Exit(1)` on failure, and the never-closed file from `os.Open` are not modelled. Deferred calls run last-registered first, so a failing close of `new.yml` exits before the deferred `RemoveAll` and leaves the temporary directory behind. The model removes it on every return path.
- `os.RemoveAll` of the temporary directory is modelled as always succeeding. The source defers it and discards its error; when it fails, the directory or part of it stays on disk and nothing is reported. The promise that the temporary directory is gone (`Host.RunAndCapture`, `EmittedFrame`) holds only when RemoveAll succeeds.
- `os.ReadDir` is modelled as returning names in sorted order, which is what it promises. Subdirectories are entries like files; reading one fails, which the `unreadable` set expresses.
- Names and standard input are Dafny strings of characters, so they cannot hold invalid UTF-8. In the source both are byte strings. Name order is code-point order, which equals Go's byte order on valid UTF-8.

=== FILE: command.dfy ===
/** The `new` command (alias `append`): gather steps, start from a fresh
    runbook or the one stored at --out, append the steps, then write the
    runbook to --out or standard output, or, with --and-run, run it and
    write what the run captured instead. */
module NewCommand {
  import opened Types
  import opened Runbooks
  import opened DirListing
  import opened Sandbox
  import opened InputSource

  /** The flags this model covers. `out` is --out after filepath.Clean, split
      into directory and file name; `Stdout` stands for an empty --out. */
  datatype Flags = Flags(desc: string, out: Target, andRun: bool)

  /** The libraries the command calls: runn.ParseRunbook, the step grammar
      behind rb.AppendStep, the yaml encoder and the engine. */
  datatype Libraries = Libraries(
    parse: Bytes -> Option<Document>,
    stepOk: StepRule,
    encode: Document -> Option<Bytes>,
    engine: Engine)

  /** The runbook the command starts from: the stored one when --out names
      an existing file, with its description replaced by a non-empty
      --desc; otherwise a fresh one described by --desc. */
  function Seed(fs: FileSystem, flags: Flags, os: Os, parse: Bytes -> Option<Document>): (r: Result<Document>)
    ensures !Exists(fs, flags.out) ==> r == Ok(Document(flags.desc, []))
    ensures r.Err? ==> Exists(fs, flags.out) && (r.error == OpenFailed || r.error == ParseFailed)
    ensures r.Ok? && flags.desc != "" ==> r.value.desc == flags.desc
    ensures r.Ok? && Exists(fs, flags.out) ==>
              var stored := parse(fs[flags.out.dir][flags.out.name]);
              && stored.Some?
              && r.value.steps == stored.value.steps
              && (flags.desc == "" ==> r.value == stored.value)
  {
    if !Exists(fs, flags.out) then Ok(Document(flags.desc, []))
    else if os.openFails then Err(OpenFailed)
    else match parse(fs[flags.out.dir][flags.out.name])
      case None => Err(ParseFailed)
      case Some(d) => Ok(if flags.desc != "" then d.(desc := flags.desc) else d)
  }

  /** The runbook once the steps are appended, or the first error. */
  function Build(fs: FileSystem, flags: Flags, os: Os, lib: Libraries, al: seq<Step>): Result<Document>
  {
    match Seed(fs, flags, os, lib.parse)
    case Err(e) => Err(e)
    case Ok(d) =>
      match AppendAll(d, al, lib.stepOk)
      case Appended(doc) => Ok(doc)
      case Rejected(k, _) => Err(InvalidStep(al[k]))
  }

  /** Everything before the output is touched: the steps, then the runbook. */
  function Prepared(fs: FileSystem, args: seq<string>, stdinIsTerminal: bool, stdin: string,
                    flags: Flags, os: Os, lib: Libraries): Result<Document>
  {
    match StepList(args, stdinIsTerminal, stdin)
    case Err(e) => Err(e)
    case Ok(al) => Build(fs, flags, os, lib, al)
  }

  /** os.Create of --out fails: refused, or its directory is missing. */
  predicate CreateFails(fs: FileSystem, o: Target, os: Os)
  {
    o.File? && (os.createFails || o.dir !in fs)
  }

  /** The state and result after the output stage, from the state `fs0`,
      `out0` before it: --out is created or truncated first; then either the
      encoded runbook is written, or the runbook is staged and run and the
      captured files are written in listing order. */
  ghost predicate Emitted(fs0: FileSystem, out0: Bytes, flags: Flags, lib: Libraries, os: Os, doc: Document,
                          r: Outcome, listing: seq<string>, written: nat, fs: FileSystem, stdout: Bytes)
    requires !CreateFails(fs0, flags.out, os)
  {
    var fs1 := Opened(fs0, flags.out);
    var base := SinkOf(fs1, out0, flags.out);
    var staged := lib.encode(doc);
    if !flags.andRun then
      match staged
      case None => r == Fail(EncodeFailed) && fs == fs1 && stdout == out0
      case Some(b) => r == Pass && (fs, stdout) == SetSink(fs1, out0, flags.out, base + b)
    else
      match SetupError(staged, lib.engine, os)
      case Some(e) => r == Fail(e) && fs == fs1 && stdout == out0
      case None =>
        var dir := AfterRun(staged.value, lib.engine(staged.value));
        && IsListing(listing, dir.Keys)
        && MergeVerdict(listing, written, os, r)
        && (fs, stdout) == SetSink(fs1, out0, flags.out, base + Captured(listing[..written], dir))
  }

  /** A fresh runbook, or the one loaded from --out. */
  method LoadRunbook(host: Host, flags: Flags, os: Os, parse: Bytes -> Option<Document>) returns (r: Result<Runbook>)
    ensures r.Ok? <==> Seed(host.fs, flags, os, parse).Ok?
    ensures r.Err? ==> r.error == Seed(host.fs, flags, os, parse).error
    ensures r.Ok? ==> fresh(r.value) && r.value.Doc() == Seed(host.fs, flags, os, parse).value
  {
    var rb := new Runbook(flags.desc);
    if Exists(host.fs, flags.out) {
      if os.openFails {
        return Err(OpenFailed);
      }
      var parsed := parse(host.fs[flags.out.dir][flags.out.name]);
      if parsed.None? {
        return Err(ParseFailed);
      }
      rb := new Runbook.Load(parsed.value);
      if flags.desc != "" {
        rb.desc := flags.desc;
      }
    }
    r := Ok(rb);
  }

  /** The append loop: every step in order, stopping at the first one the
      runbook rejects, with the steps before it kept. */
  method AppendSteps(rb: Runbook, al: seq<Step>, ok: StepRule) returns (r: Outcome)
    modifies rb
    ensures AppendAll(old(rb.Doc()), al, ok).Appended? ==>
              r == Pass && rb.Doc() == AppendAll(old(rb.Doc()), al, ok).doc
    ensures AppendAll(old(rb.Doc()), al, ok).Rejected? ==>
              && r == Fail(InvalidStep(al[AppendAll(old(rb.Doc()), al, ok).at]))
              && rb.Doc() == AppendAll(old(rb.Doc()), al, ok).partial
  {
    ghost var d := rb.Doc();
    var i := 0;
    while i < |al|
      invariant 0 <= i <= |al|
      invariant rb.Doc() == Document(d.desc, d.steps + al[..i])
      invariant AcceptedUpTo(d, al, ok, i)
    {
      r := rb.AppendStep(al[i], ok);
      if r.Fail? {
        AppendAllStopsAt(d, al, ok, i);
        return;
      }
      assert al[..i + 1] == al[..i] + [al[i]];
      i := i + 1;
    }
    assert al[..i] == al;
    AppendAllCompletes(d, al, ok);
    r := Pass;
  }

  /** The output stage: create --out, then encode the runbook into it or
      run it and copy what the run captured. */
  method Output(host: Host, flags: Flags, lib: Libraries, os: Os, doc: Document)
    returns (r: Outcome, ghost listing: seq<string>, ghost written: nat)
    requires os.tempDir.Some? ==> os.tempDir.value !in host.fs
    modifies host
    ensures CreateFails(old(host.fs), flags.out, os) ==>
              r == Fail(CreateFailed) && host.fs == old(host.fs) && host.stdout == old(host.stdout)
    ensures !CreateFails(old(host.fs), flags.out, os) ==>
              Emitted(old(host.fs), old(host.stdout), flags, lib, os, doc, r, listing, written, host.fs, host.stdout)
  {
    listing, written := [], 0;
    if flags.out.File? {
      if os.createFails || flags.out.dir !in host.fs {
        r := Fail(CreateFailed);
        return;
      }
      host.Create(flags.out);
    }
    if flags.andRun {
      r, listing, written := host.RunAndCapture(flags.out, lib.encode(doc), lib.engine, os);
    } else {
      var staged := lib.encode(doc);
      if staged.None? {
        r := Fail(EncodeFailed);
        return;
      }
      host.Write(flags.out, staged.value);
      r := Pass;
    }
  }

  /** The command from its arguments to its result. Nothing is touched
      until the runbook is complete; --out is then created or truncated
      before anything is written to it. */
  method Run(host: Host, args: seq<string>, stdinIsTerminal: bool, stdin: string, flags: Flags, lib: Libraries, os: Os)
    returns (r: Outcome, ghost listing: seq<string>, ghost written: nat)
    requires os.tempDir.Some? ==> os.tempDir.value !in host.fs
    modifies host
    ensures var p := Prepared(old(host.fs), args, stdinIsTerminal, stdin, flags, os, lib);
            p.Err? ==> r == Fail(p.error) && host.fs == old(host.fs) && host.stdout == old(host.stdout)
    ensures var p := Prepared(old(host.fs), args, stdinIsTerminal, stdin, flags, os, lib);
            p.Ok? && CreateFails(old(host.fs), flags.out, os) ==>
              r == Fail(CreateFailed) && host.fs == old(host.fs) && host.stdout == old(host.stdout)
    ensures var p := Prepared(old(host.fs), args, stdinIsTerminal, stdin, flags, os, lib);
            p.Ok? && !CreateFails(old(host.fs), flags.out, os) ==>
              Emitted(old(host.fs), old(host.stdout), flags, lib, os, p.value, r, listing, written, host.fs, host.stdout)
  {
    listing, written := [], 0;
    var steps := CollectSteps(args, stdinIsTerminal, stdin);
    if steps.Err? {
      r := Fail(steps.error);
      return;
    }
    var loaded := LoadRunbook(host, flags, os, lib.parse);
    if loaded.Err? {
      r := Fail(loaded.error);
      return;
    }
    var rb := loaded.value;
    r := AppendSteps(rb, steps.value, lib.stepOk);
    if r.Fail? {
      return;
    }
    r, listing, written := Output(host, flags, lib, os, rb.Doc());
  }

  /** Appending to a stored runbook: when --out holds the encoding of the
      runbook a first run built, and the parser reads that encoding back,
      the next run builds what one run with both step lists concatenated
      would, provided its --desc is empty or equal to the first run's. */
  lemma AppendToStored(fs: FileSystem, flags1: Flags, flags2: Flags, os: Os, lib: Libraries, al1: seq<Step>, al2: seq<Step>)
    requires flags1.out.File? && flags2.out == flags1.out
    requires !os.openFails && !CreateFails(fs, flags1.out, os)
    requires flags2.desc == "" || flags2.desc == flags1.desc
    requires Build(fs, flags1, os, lib, al1).Ok?
    requires lib.encode(Build(fs, flags1, os, lib, al1).value).Some?
    requires lib.parse(lib.encode(Build(fs, flags1, os, lib, al1).value).value) == Some(Build(fs, flags1, os, lib, al1).value)
    ensures var d := Build(fs, flags1, os, lib, al1).value;
            var fs2 := SetSink(Opened(fs, flags1.out), [], flags1.out, lib.encode(d).value).0;
            Build(fs2, flags2, os, lib, al2) == Build(fs, flags1, os, lib, al1 + al2)
  {
    var s := Seed(fs, flags1, os, lib.parse).value;
    var d := Build(fs, flags1, os, lib, al1).value;
    var o := flags1.out;
    var fs2 := SetSink(Opened(fs, o), [], o, lib.encode(d).value).0;
    AppendAllMeaning(s, al1, lib.stepOk);
    assert AppendAll(s, al1, lib.stepOk) == Appended(d);
    assert flags1.desc != "" ==> d.desc == flags1.desc;
    assert Exists(fs2, o) && fs2[o.dir][o.name] == lib.encode(d).value;
    assert Seed(fs2, flags2, os, lib.parse) == Ok(d);
    AppendAllConcat(s, al1, al2, lib.stepOk);
    match AppendAll(d, al2, lib.stepOk)
    case Appended(f) =>
    case Rejected(k, p) =>
      assert (al1 + al2)[|al1| + k] == al2[k];
  }

  /** The `append` use: a first run without --and-run leaves the encoded
      runbook at --out; with an encoder whose output the parser reads back,
      a second run on the same file accumulates both step lists in order,
      as one run with their concatenation would. */
  lemma AppendTwice(fs: FileSystem, out0: Bytes, flags1: Flags, flags2: Flags, os: Os, lib: Libraries,
                    al1: seq<Step>, al2: seq<Step>, d: Document,
                    listing: seq<string>, written: nat, fs2: FileSystem, stdout2: Bytes)
    requires flags1.out.File? && !flags1.andRun && flags2.out == flags1.out
    requires !os.openFails && !CreateFails(fs, flags1.out, os)
    requires flags2.desc == "" || flags2.desc == flags1.desc
    requires forall e | lib.encode(e).Some? :: lib.parse(lib.encode(e).value) == Some(e)
    requires Build(fs, flags1, os, lib, al1) == Ok(d)
    requires Emitted(fs, out0, flags1, lib, os, d, Pass, listing, written, fs2, stdout2)
    ensures Build(fs2, flags2, os, lib, al2) == Build(fs, flags1, os, lib, al1 + al2)
  {
    var o := flags1.out;
    assert lib.encode(d).Some?;
    var b := lib.encode(d).value;
    assert SinkOf(Opened(fs, o), out0, o) + b == b;
    assert fs2 == SetSink(Opened(fs, o), [], o, b).0;
    AppendToStored(fs, flags1, flags2, os, lib, al1, al2);
  }

  /** The output stage changes at most the --out file and standard output:
      every other file is as it was, and the temporary directory is gone. */
  lemma EmittedFrame(fs0: FileSystem, out0: Bytes, flags: Flags, lib: Libraries, os: Os, doc: Document,
                     r: Outcome, listing: seq<string>, written: nat, fs: FileSystem, stdout: Bytes)
    requires !CreateFails(fs0, flags.out, os)
    requires Emitted(fs0, out0, flags, lib, os, doc, r, listing, written, fs, stdout)
    ensures fs.Keys == fs0.Keys
    ensures forall d | d in fs0 && (flags.out.Stdout? || d != flags.out.dir) :: fs[d] == fs0[d]
    ensures flags.out.File? ==>
              && fs[flags.out.dir].Keys == fs0[flags.out.dir].Keys + {flags.out.name}
              && forall n | n in fs0[flags.out.dir] && n != flags.out.name :: fs[flags.out.dir][n] == fs0[flags.out.dir][n]
    ensures flags.out.File? ==> stdout == out0
  {
    var o := flags.out;
    var fs1 := Opened(fs0, o);
    var base := SinkOf(fs1, out0, o);
    var staged := lib.encode(doc);
    var content := base;
    if !flags.andRun && staged.Some? {
      content := base + staged.value;
    } else if flags.andRun && SetupError(staged, lib.engine, os).None? {
      content := base + Captured(listing[..written], AfterRun(staged.value, lib.engine(staged.value)));
    } else {
      SetSinkSelf(fs1, out0, o);
    }
    assert (fs, stdout) == SetSink(fs1, out0, o, content);
    OpenedFrame(fs0, out0, o, content);
  }

  /** A failing encoder, without --and-run, still leaves --out truncated:
      a runbook loaded from it is lost. */
  lemma EncodeFailureTruncates(fs0: FileSystem, out0: Bytes, flags: Flags, lib: Libraries, os: Os, doc: Document,
                               r: Outcome, listing: seq<string>, written: nat, fs: FileSystem, stdout: Bytes)
    requires flags.out.File? && !flags.andRun && !CreateFails(fs0, flags.out, os)
    requires lib.encode(doc).None?
    requires Emitted(fs0, out0, flags, lib, os, doc, r, listing, written, fs, stdout)
    ensures r == Fail(EncodeFailed)
    ensures flags.out.name in fs[flags.out.dir] && fs[flags.out.dir][flags.out.name] == []
  {
  }
}

=== FILE: input.dfy ===
/** Where the command's steps come from: the positional arguments as one
    step, or, with no arguments, one step per line of standard input; an
    interactive terminal with no arguments is refused. */
module InputSource {
  import opened Types
  import opened Tokenizer

  const InteractiveMessage: string := "interactive mode is planned, but not yet implemented"

  /** The three ways the command can obtain its steps. */
  datatype Source = RejectInteractive | ReadStdin | UseArgs(args: seq<string>)

  function SelectSource(args: seq<string>, stdinIsTerminal: bool): (r: Source)
    ensures r.RejectInteractive? <==> args == [] && stdinIsTerminal
    ensures r.ReadStdin? <==> args == [] && !stdinIsTerminal
    ensures r.UseArgs? ==> r.args == args
  {
    if args == [] then
      if stdinIsTerminal then RejectInteractive else ReadStdin
    else UseArgs(args)
  }

  /** The list of steps the command appends, or the refusal. */
  function StepList(args: seq<string>, stdinIsTerminal: bool, stdin: string): (r: Result<seq<seq<string>>>)
    ensures r.Err? <==> args == [] && stdinIsTerminal
    ensures r.Ok? ==> forall k | 0 <= k < |r.value| :: r.value[k] != []
    ensures r.Ok? && args == [] ==> forall k | 0 <= k < |r.value| :: |r.value[k]| == 1
  {
    match SelectSource(args, stdinIsTerminal)
    case RejectInteractive => Err(Usage(InteractiveMessage))
    case ReadStdin => Ok(Singletons(ScanLines(stdin)))
    case UseArgs(a) => Ok([a])
  }

  /** Collects the steps: refuses only an interactive terminal without
      arguments; arguments form exactly one step, tokens kept as given;
      standard input is read only when there are no arguments and gives one
      single-token step per line. */
  method CollectSteps(args: seq<string>, stdinIsTerminal: bool, stdin: string) returns (r: Result<seq<seq<string>>>)
    ensures r == StepList(args, stdinIsTerminal, stdin)
    ensures r.Err? <==> args == [] && stdinIsTerminal
    ensures r.Err? ==> r.error == Usage(InteractiveMessage)
    ensures args != [] ==> r == Ok([args])
    ensures args == [] && !stdinIsTerminal ==>
              && r.Ok?
              && |r.value| == |ScanLines(stdin)|
              && (forall k | 0 <= k < |r.value| :: r.value[k] == [ScanLines(stdin)[k]])
  {
    match SelectSource(args, stdinIsTerminal)
    case RejectInteractive =>
      r := Err(Usage(InteractiveMessage));
    case ReadStdin =>
      var al := ArgsListFromStdin(stdin);
      r := Ok(al);
    case UseArgs(a) =>
      r := Ok([a]);
  }

  /** Piping lines gives those lines back as steps, one each, whether or
      not the last line is terminated. */
  lemma PipedLines(lines: seq<string>, last: string)
    requires forall k | 0 <= k < |lines| :: PlainLine(lines[k])
    requires PlainLine(last)
    ensures StepList([], false, Terminated(lines)) == Ok(Singletons(lines))
    ensures last != [] ==> StepList([], false, Terminated(lines) + last) == Ok(Singletons(lines + [last]))
  {
    ScanLinesRoundTrip(lines, last);
  }
}

=== FILE: listing.dfy ===
/** Directory listing as os.ReadDir gives it: every entry name of the
    directory once, sorted by name (code-point order, which is Go's byte order on
    UTF-8 names). */
module DirListing {
  import opened Types

  /** Lexicographic order on names: a prefix comes first, otherwise the
      first differing character decides. */
  predicate NameLe(a: string, b: string)
    decreases |a|
  {
    a == [] || (b != [] && (a[0] < b[0] || (a[0] == b[0] && NameLe(a[1..], b[1..]))))
  }

  /** Any two names are ordered one way or the other. */
  lemma {:induction false} NameLeTotal(a: string, b: string)
    ensures NameLe(a, b) || NameLe(b, a)
    decreases |a|
  {
    if a != [] && b != [] && a[0] == b[0] {
      NameLeTotal(a[1..], b[1..]);
    }
  }

  lemma {:induction false} NameLeAntisymmetric(a: string, b: string)
    requires NameLe(a, b) && NameLe(b, a)
    ensures a == b
    decreases |a|
  {
    if a != [] {
      NameLeAntisymmetric(a[1..], b[1..]);
      assert a == [a[0]] + a[1..] && b == [b[0]] + b[1..];
    }
  }

  lemma {:induction false} NameLeTransitive(a: string, b: string, c: string)
    requires NameLe(a, b) && NameLe(b, c)
    ensures NameLe(a, c)
    decreases |a|
  {
    if a != [] && a[0] == b[0] && b[0] == c[0] {
      NameLeTransitive(a[1..], b[1..], c[1..]);
    }
  }

  predicate Sorted(names: seq<string>)
  {
    forall i | 0 < i < |names| :: NameLe(names[i - 1], names[i])
  }

  /** What os.ReadDir returns for a directory with entry names `keys`. */
  ghost predicate IsListing(names: seq<string>, keys: set<string>)
  {
    && Sorted(names)
    && multiset(names) == multiset(keys)
    && (forall e | e in names :: e in keys)
  }

  /** `x` inserted into a sorted list before the first name not below it. */
  function Insert(names: seq<string>, x: string): (r: seq<string>)
    ensures multiset(r) == multiset(names) + multiset{x}
    ensures Sorted(names) ==> Sorted(r)
    ensures r[0] == x || (names != [] && r[0] == names[0])
  {
    if names == [] then [x]
    else if NameLe(x, names[0]) then [x] + names
    else
      var r := [names[0]] + Insert(names[1..], x);
      assert names == [names[0]] + names[1..];
      NameLeTotal(x, names[0]);
      r
  }

  /** os.ReadDir: gathers the entry names one at a time into a sorted list. */
  method ReadDir(dir: Dir) returns (names: seq<string>)
    ensures IsListing(names, dir.Keys)
  {
    names := [];
    var rest := dir.Keys;
    while rest != {}
      invariant rest <= dir.Keys
      invariant Sorted(names)
      invariant multiset(names) + multiset(rest) == multiset(dir.Keys)
      decreases rest
    {
      var x :| x in rest;
      assert multiset(rest) == multiset(rest - {x}) + multiset{x};
      names := Insert(names, x);
      rest := rest - {x};
    }
    assert multiset(rest) == multiset{};
    forall e | e in names ensures e in dir.Keys {
      assert e in multiset(names);
      assert e in multiset(dir.Keys);
    }
  }

  /** In a sorted list every name is below every later one. */
  lemma {:induction false} SortedBelow(names: seq<string>, i: nat, j: nat)
    requires Sorted(names) && i <= j < |names|
    ensures NameLe(names[i], names[j])
    decreases j - i
  {
    if i == j {
      NameLeTotal(names[i], names[j]);
    } else {
      SortedBelow(names, i + 1, j);
      NameLeTransitive(names[i], names[i + 1], names[j]);
    }
  }

  /** Without its first name, a listing lists the other names. */
  lemma ListingTail(x: seq<string>, keys: set<string>)
    requires IsListing(x, keys) && x != []
    ensures IsListing(x[1..], keys - {x[0]})
  {
    var m := x[0];
    var rest := keys - {m};
    assert m in keys;
    assert x == [m] + x[1..];
    assert multiset(x) == multiset{m} + multiset(x[1..]);
    forall e ensures multiset(x[1..])[e] == multiset(rest)[e] {
      assert multiset(x)[e] == multiset(keys)[e];
      if e == m {
        assert multiset(keys)[e] == 1;
      }
    }
    assert multiset(x[1..]) == multiset(rest);
    forall i | 0 < i < |x[1..]| ensures NameLe(x[1..][i - 1], x[1..][i]) {
      assert x[1..][i - 1] == x[i] && x[1..][i] == x[i + 1];
    }
    forall e | e in x[1..] ensures e in rest {
      assert e in multiset(rest);
    }
  }

  /** The listing of a set of names is unique: the order in which the
      captured files are merged depends on their names alone. */
  lemma {:induction false} ListingUnique(x: seq<string>, y: seq<string>, keys: set<string>)
    requires IsListing(x, keys) && IsListing(y, keys)
    ensures x == y
    decreases |x|
  {
    assert |x| == |multiset(x)| == |multiset(y)| == |y|;
    if x != [] {
      var m := x[0];
      assert m in multiset(y);
      assert y[0] in multiset(x);
      var i :| 0 <= i < |y| && y[i] == m;
      var j :| 0 <= j < |x| && x[j] == y[0];
      SortedBelow(x, 0, j);
      SortedBelow(y, 0, i);
      NameLeAntisymmetric(m, y[0]);
      var rest := keys - {m};
      ListingTail(x, keys);
      ListingTail(y, keys);
      ListingUnique(x[1..], y[1..], rest);
    }
  }
}

=== FILE: runbook.dfy ===
/** The runbook document: a description and an append-only list of steps.
    Whether the engine accepts a step (`rb.AppendStep`) is a rule given from
    outside, which may look at the document built so far. */
module Runbooks {
  import opened Types

  /** A step as the command receives it: its positional tokens. */
  type Step = seq<string>

  datatype Document = Document(desc: string, steps: seq<Step>)

  /** The engine's step grammar: may `args` be appended to this document? */
  type StepRule = (Document, Step) -> bool

  /** How appending a list of steps ends: every step appended, or the index
      of the first rejected step and the document built before it. */
  datatype AppendResult = Appended(doc: Document) | Rejected(at: nat, partial: Document)

  /** The document with one more step at the end. */
  function Extend(d: Document, args: Step): Document
  {
    Document(d.desc, d.steps + [args])
  }

  /** The `for _, args := range al` loop of the command, as a fold that
      stops at the first rejected step. */
  function AppendAll(d: Document, al: seq<Step>, ok: StepRule): (r: AppendResult)
    ensures r.Rejected? ==> r.at < |al| && !ok(r.partial, al[r.at])
    ensures r.Rejected? ==> r.partial.desc == d.desc
    decreases |al|
  {
    if al == [] then Appended(d)
    else if !ok(d, al[0]) then Rejected(0, d)
    else match AppendAll(Extend(d, al[0]), al[1..], ok)
      case Appended(e) => Appended(e)
      case Rejected(k, p) => Rejected(k + 1, p)
  }

  /** Every step up to `n` is accepted by the document built before it. */
  ghost predicate AcceptedUpTo(d: Document, al: seq<Step>, ok: StepRule, n: nat)
    requires n <= |al|
  {
    forall k | 0 <= k < n :: ok(Document(d.desc, d.steps + al[..k]), al[k])
  }

  /** Appending keeps the description and the loaded steps, adds the new
      steps in list order, and stops exactly at the first step the rule
      rejects, with the steps before it already appended. */
  lemma {:induction false} AppendAllMeaning(d: Document, al: seq<Step>, ok: StepRule)
    ensures AppendAll(d, al, ok).Appended? <==> AcceptedUpTo(d, al, ok, |al|)
    ensures AppendAll(d, al, ok).Appended? ==>
              AppendAll(d, al, ok).doc == Document(d.desc, d.steps + al)
    ensures AppendAll(d, al, ok).Rejected? ==>
              var k := AppendAll(d, al, ok).at;
              && AcceptedUpTo(d, al, ok, k)
              && AppendAll(d, al, ok).partial == Document(d.desc, d.steps + al[..k])
              && !ok(AppendAll(d, al, ok).partial, al[k])
    decreases |al|
  {
    if al == [] {
      assert d.steps + al == d.steps;
    } else if !ok(d, al[0]) {
      assert d.steps + al[..0] == d.steps;
    } else {
      var d' := Extend(d, al[0]);
      var tail := al[1..];
      AppendAllMeaning(d', tail, ok);
      assert d.steps + al == d'.steps + tail;
      forall k | 0 <= k < |tail| ensures d'.steps + tail[..k] == d.steps + al[..k + 1] {
        assert al[..k + 1] == [al[0]] + tail[..k];
      }
      assert d.steps + al[..0] == d.steps;
      assert AcceptedUpTo(d', tail, ok, |tail|) <==> AcceptedUpTo(d, al, ok, |al|) by {
        if AcceptedUpTo(d', tail, ok, |tail|) {
          forall k | 0 <= k < |al| ensures ok(Document(d.desc, d.steps + al[..k]), al[k]) {
            if k > 0 { assert al[k] == tail[k - 1]; }
          }
        }
        if AcceptedUpTo(d, al, ok, |al|) {
          forall k | 0 <= k < |tail| ensures ok(Document(d'.desc, d'.steps + tail[..k]), tail[k]) {
            assert ok(Document(d.desc, d.steps + al[..k + 1]), al[k + 1]);
          }
        }
      }
      match AppendAll(d', tail, ok)
      case Appended(e) =>
      case Rejected(k, p) =>
        forall j | 0 <= j < k + 1 ensures ok(Document(d.desc, d.steps + al[..j]), al[j]) {
          if j > 0 { assert al[j] == tail[j - 1]; }
        }
    }
  }

  /** Appending stops at step `i` when the steps before it were accepted
      and it is not. */
  lemma AppendAllStopsAt(d: Document, al: seq<Step>, ok: StepRule, i: nat)
    requires i < |al| && AcceptedUpTo(d, al, ok, i)
    requires !ok(Document(d.desc, d.steps + al[..i]), al[i])
    ensures AppendAll(d, al, ok) == Rejected(i, Document(d.desc, d.steps + al[..i]))
  {
    AppendAllMeaning(d, al, ok);
    assert !AcceptedUpTo(d, al, ok, |al|);
  }

  /** Appending goes through when every step is accepted. */
  lemma AppendAllCompletes(d: Document, al: seq<Step>, ok: StepRule)
    requires AcceptedUpTo(d, al, ok, |al|)
    ensures AppendAll(d, al, ok) == Appended(Document(d.desc, d.steps + al))
  {
    AppendAllMeaning(d, al, ok);
  }

  /** Appending `a` and then `b` is appending `a + b`: the command run twice
      on the same document accumulates both lists. A step of `b` rejected
      at index `k` is at index `|a| + k` of the joined list. */
  lemma {:induction false} AppendAllConcat(d: Document, a: seq<Step>, b: seq<Step>, ok: StepRule)
    ensures AppendAll(d, a + b, ok) ==
              match AppendAll(d, a, ok)
              case Rejected(k, p) => Rejected(k, p)
              case Appended(e) =>
                match AppendAll(e, b, ok)
                case Appended(f) => Appended(f)
                case Rejected(k, p) => Rejected(|a| + k, p)
    decreases |a|
  {
    if a == [] {
      assert a + b == b;
    } else {
      assert (a + b)[0] == a[0];
      assert (a + b)[1..] == a[1..] + b;
      if ok(d, a[0]) {
        AppendAllConcat(Extend(d, a[0]), a[1..], b, ok);
      }
    }
  }

  /** The mutable runbook of the command (`rb`). */
  class Runbook {
    var desc: string
    var steps: seq<Step>

    /** runn.NewRunbook: a fresh runbook with the given description. */
    constructor (desc: string)
      ensures Doc() == Document(desc, [])
    {
      this.desc := desc;
      steps := [];
    }

    /** The runbook runn.ParseRunbook returns for a decoded document. */
    constructor Load(d: Document)
      ensures Doc() == d
    {
      desc := d.desc;
      steps := d.steps;
    }

    function Doc(): Document
      reads this
    {
      Document(desc, steps)
    }

    /** rb.AppendStep: appends the step when the rule accepts it, and
        otherwise reports it and leaves the runbook as it was. */
    method AppendStep(args: Step, ok: StepRule) returns (r: Outcome)
      modifies this
      ensures ok(old(Doc()), args) ==> r == Pass && Doc() == Extend(old(Doc()), args)
      ensures !ok(old(Doc()), args) ==> r == Fail(InvalidStep(args)) && Doc() == old(Doc())
    {
      if ok(Doc(), args) {
        steps := steps + [args];
        r := Pass;
      } else {
        r := Fail(InvalidStep(args));
      }
    }
  }
}

=== FILE: sandbox.dfy ===
/** `runAndCapture`: stage the serialised runbook in a fresh temporary
    directory, let the engine run it with capture into that directory, then
    write every captured file except the staged one, in listing order, to
    the output. RemoveAll of the temporary directory is called on every
    return path, and is modelled as succeeding. */
module Sandbox {
  import opened Types
  import opened DirListing

  /** The fixed name of the staged runbook inside the temporary directory. */
  const StagedName: string := "new.yml"

  /** How the engine run ends (runn.New and oo.Run together) and the files
      its capture left in the temporary directory. */
  datatype EngineRun = EngineRun(ok: bool, added: Dir)

  /** The engine, as a function of the staged runbook's bytes. */
  type Engine = Bytes -> EngineRun

  /** The temporary directory once the engine has run on the staged runbook. */
  function AfterRun(staged: Bytes, run: EngineRun): Dir
  {
    map[StagedName := staged] + run.added
  }

  /** What the merge writes for one directory entry. */
  function Piece(name: string, dir: Dir): Bytes
    requires name in dir
  {
    if name == StagedName then [] else dir[name]
  }

  /** The merged output of `entries`: the contents of each entry except the
      staged runbook, concatenated in order. */
  function Captured(entries: seq<string>, dir: Dir): Bytes
    requires forall e | e in entries :: e in dir
  {
    if entries == [] then []
    else Captured(entries[..|entries| - 1], dir) + Piece(entries[|entries| - 1], dir)
  }

  /** Merging one more entry appends its bytes, or nothing when it is the
      staged runbook. */
  lemma CapturedStep(entries: seq<string>, i: nat, dir: Dir)
    requires i < |entries|
    requires forall e | e in entries :: e in dir
    ensures Captured(entries[..i + 1], dir) ==
            Captured(entries[..i], dir) + (if entries[i] == StagedName then [] else dir[entries[i]])
  {
    assert entries[..i + 1][..i] == entries[..i];
  }

  /** Merging two lists of entries one after the other is merging their
      concatenation. */
  lemma {:induction false} CapturedConcat(a: seq<string>, b: seq<string>, dir: Dir)
    requires forall e | e in a + b :: e in dir
    ensures Captured(a + b, dir) == Captured(a, dir) + Captured(b, dir)
    decreases |b|
  {
    if b == [] {
      assert a + b == a;
    } else {
      var b' := b[..|b| - 1];
      assert (a + b)[..|a + b| - 1] == a + b';
      CapturedConcat(a, b', dir);
    }
  }

  /** What a merge stopped part-way has written is a prefix of the full
      merge: bytes already written are never taken back or reordered. */
  lemma CapturedPrefix(entries: seq<string>, k: nat, dir: Dir)
    requires k <= |entries|
    requires forall e | e in entries :: e in dir
    ensures Captured(entries[..k], dir) <= Captured(entries, dir)
  {
    assert entries == entries[..k] + entries[k..];
    CapturedConcat(entries[..k], entries[k..], dir);
  }

  /** The bytes of the staged runbook never reach the output: replacing them
      changes nothing in the merge. */
  lemma {:induction false} CapturedIgnoresStaged(entries: seq<string>, dir: Dir, staged: Bytes)
    requires forall e | e in entries :: e in dir
    ensures Captured(entries, dir) == Captured(entries, dir[StagedName := staged])
    decreases |entries|
  {
    if entries != [] {
      CapturedIgnoresStaged(entries[..|entries| - 1], dir, staged);
    }
  }

  /** When the engine captured nothing, nothing is written. */
  lemma {:induction false} CapturedNothing(entries: seq<string>, dir: Dir)
    requires forall e | e in entries :: e in dir
    requires dir.Keys <= {StagedName}
    ensures Captured(entries, dir) == []
    decreases |entries|
  {
    if entries != [] {
      CapturedNothing(entries[..|entries| - 1], dir);
    }
  }

  /** Staging other bytes changes the directory after the run at most in
      the staged file, and the set of its names not at all. */
  lemma Restage(s1: Bytes, s2: Bytes, run: EngineRun) returns (x: Bytes)
    ensures AfterRun(s2, run) == AfterRun(s1, run)[StagedName := x]
    ensures AfterRun(s2, run).Keys == AfterRun(s1, run).Keys
  {
    x := if StagedName in run.added then run.added[StagedName] else s2;
    assert AfterRun(s2, run).Keys == AfterRun(s1, run).Keys;
  }

  /** The merged output after a successful run is determined by the engine's
      captured files alone: whatever runbook was staged, and whichever
      listing os.ReadDir returned, the bytes are the same. */
  lemma CapturedDependsOnRunOnly(s1: Bytes, s2: Bytes, run: EngineRun, l1: seq<string>, l2: seq<string>)
    requires IsListing(l1, AfterRun(s1, run).Keys)
    requires IsListing(l2, AfterRun(s2, run).Keys)
    ensures Captured(l1, AfterRun(s1, run)) == Captured(l2, AfterRun(s2, run))
  {
    var d1 := AfterRun(s1, run);
    var x := Restage(s1, s2, run);
    ListingUnique(l1, l2, d1.Keys);
    CapturedIgnoresStaged(l1, d1, x);
  }

  /** The state with the output `o` holding `content`. */
  function SetSink(fs: FileSystem, stdout: Bytes, o: Target, content: Bytes): (FileSystem, Bytes)
    requires o.File? ==> o.dir in fs
  {
    match o
    case Stdout => (fs, content)
    case File(d, n) => (fs[d := fs[d][n := content]], stdout)
  }

  /** `o` names an existing file of `fs` (os.Stat finds it). */
  predicate Exists(fs: FileSystem, o: Target)
  {
    o.File? && o.dir in fs && o.name in fs[o.dir]
  }

  /** `o` is standard output or an existing file of `fs`. */
  predicate Writable(fs: FileSystem, o: Target)
  {
    o.Stdout? || Exists(fs, o)
  }

  /** The bytes the output `o` holds. */
  function SinkOf(fs: FileSystem, stdout: Bytes, o: Target): Bytes
  {
    match o
    case Stdout => stdout
    case File(d, n) => if d in fs && n in fs[d] then fs[d][n] else []
  }

  /** Setting an output to what it holds changes nothing. */
  lemma SetSinkSelf(fs: FileSystem, stdout: Bytes, o: Target)
    requires Writable(fs, o)
    ensures SetSink(fs, stdout, o, SinkOf(fs, stdout, o)) == (fs, stdout)
  {
    if o.File? {
      assert fs[o.dir][o.name := fs[o.dir][o.name]] == fs[o.dir];
      assert fs[o.dir := fs[o.dir]] == fs;
    }
  }

  /** After setting an output it holds the new content and stays writable,
      and setting it again overrides the first setting. */
  lemma SetSinkTwice(fs: FileSystem, stdout: Bytes, o: Target, c1: Bytes, c2: Bytes)
    requires Writable(fs, o)
    ensures var (fs1, out1) := SetSink(fs, stdout, o, c1);
            && Writable(fs1, o)
            && SinkOf(fs1, out1, o) == c1
            && SetSink(fs1, out1, o, c2) == SetSink(fs, stdout, o, c2)
  {
    if o.File? {
      assert fs[o.dir][o.name := c1][o.name := c2] == fs[o.dir][o.name := c2];
      assert fs[o.dir := fs[o.dir][o.name := c1]][o.dir := fs[o.dir][o.name := c2]]
          == fs[o.dir := fs[o.dir][o.name := c2]];
    }
  }

  /** The filesystem once os.Create has created, or truncated, the file `o`. */
  function Opened(fs: FileSystem, o: Target): FileSystem
  {
    if o.File? && o.dir in fs then fs[o.dir := fs[o.dir][o.name := []]] else fs
  }

  /** Creating the output file and then setting the output changes only
      that file's contents, or only standard output. */
  lemma OpenedFrame(fs0: FileSystem, out0: Bytes, o: Target, content: Bytes)
    requires o.File? ==> o.dir in fs0
    ensures var (fs, stdout) := SetSink(Opened(fs0, o), out0, o, content);
            && fs.Keys == fs0.Keys
            && (forall d | d in fs0 && (o.Stdout? || d != o.dir) :: fs[d] == fs0[d])
            && (o.File? ==>
                  && fs[o.dir].Keys == fs0[o.dir].Keys + {o.name}
                  && (forall n | n in fs0[o.dir] && n != o.name :: fs[o.dir][n] == fs0[o.dir][n])
                  && stdout == out0)
  {
  }

  /** Replacing a directory's contents changes nothing outside it. */
  lemma ReplaceInside(fs: FileSystem, td: string, d: Dir)
    ensures fs[td := d] - {td} == fs - {td}
  {
  }

  /** Writing to an output outside a directory commutes with removing it. */
  lemma SetSinkOutside(fs: FileSystem, stdout: Bytes, o: Target, content: Bytes, td: string)
    requires o.File? ==> o.dir in fs && o.dir != td
    ensures (SetSink(fs, stdout, o, content).0 - {td}, SetSink(fs, stdout, o, content).1)
            == SetSink(fs - {td}, stdout, o, content)
  {
    if o.File? {
      assert fs[o.dir := fs[o.dir][o.name := content]] - {td}
          == (fs - {td})[o.dir := fs[o.dir][o.name := content]];
    }
  }

  /** Can the merge go past entry `e`: the staged runbook is skipped, any
      other entry is read and written. */
  predicate Transferable(e: string, os: Os)
  {
    e == StagedName || (e !in os.unreadable && e !in os.unwritable)
  }

  /** The error an entry that cannot be transferred stops the merge with:
      its read fails first, otherwise its write. */
  function EntryError(e: string, os: Os): Error
  {
    if e in os.unreadable then ReadFileFailed(e) else WriteFailed(e)
  }

  /** The merge went through the first `written` entries and either reached
      the end or stopped at the first entry it could not transfer. */
  predicate MergeVerdict(entries: seq<string>, written: nat, os: Os, r: Outcome)
  {
    && written <= |entries|
    && (forall k | 0 <= k < written :: Transferable(entries[k], os))
    && if written == |entries| then r == Pass
       else !Transferable(entries[written], os) && r == Fail(EntryError(entries[written], os))
  }

  /** The first setup step of runAndCapture that fails, if any: MkdirTemp,
      creating the staged file, encoding into it, the engine, ReadDir. */
  function SetupError(staged: Option<Bytes>, engine: Engine, os: Os): (r: Option<Error>)
    ensures r.None? <==>
              os.tempDir.Some? && !os.createTempFails && staged.Some? && engine(staged.value).ok && !os.readDirFails
    ensures os.tempDir.None? ==> r == Some(MkdirTempFailed)
    ensures r == Some(EngineFailed) ==> staged.Some? && !engine(staged.value).ok
    ensures r == Some(ReadDirFailed) ==> staged.Some? && engine(staged.value).ok
  {
    if os.tempDir.None? then Some(MkdirTempFailed)
    else if os.createTempFails then Some(CreateFailed)
    else if staged.None? then Some(EncodeFailed)
    else if !engine(staged.value).ok then Some(EngineFailed)
    else if os.readDirFails then Some(ReadDirFailed)
    else None
  }

  /** The process's view of the world: the filesystem and standard output. */
  class Host {
    var fs: FileSystem
    var stdout: Bytes

    constructor (fs: FileSystem, stdout: Bytes)
      ensures this.fs == fs && this.stdout == stdout
    {
      this.fs := fs;
      this.stdout := stdout;
    }

    /** os.Create of the output file: creates it empty, or truncates it. */
    method Create(o: Target)
      requires o.File? && o.dir in fs
      modifies this
      ensures fs == Opened(old(fs), o) && stdout == old(stdout)
      ensures Writable(fs, o) && SinkOf(fs, stdout, o) == []
    {
      fs := fs[o.dir := fs[o.dir][o.name := []]];
    }

    /** o.Write: appends `b` to the output and changes nothing else. */
    method Write(o: Target, b: Bytes)
      requires Writable(fs, o)
      modifies this
      ensures (fs, stdout) == SetSink(old(fs), old(stdout), o, old(SinkOf(fs, stdout, o)) + b)
    {
      match o
      case Stdout =>
        stdout := stdout + b;
      case File(d, n) =>
        fs := fs[d := fs[d][n := fs[d][n] + b]];
    }

    /** The merge loop of runAndCapture: for each entry other than the
        staged runbook, read it and write its bytes to `o`, stopping at the
        first read or write that fails. */
    method Merge(o: Target, td: string, entries: seq<string>, os: Os) returns (r: Outcome, ghost written: nat)
      requires Writable(fs, o) && td in fs
      requires o.File? ==> o.dir != td
      requires forall e | e in entries :: e in fs[td]
      modifies this
      ensures MergeVerdict(entries, written, os, r)
      ensures (fs, stdout) == SetSink(old(fs), old(stdout), o, old(SinkOf(fs, stdout, o)) + Captured(entries[..written], old(fs[td])))
    {
      ghost var dir, fs0, out0, base := fs[td], fs, stdout, SinkOf(fs, stdout, o);
      SetSinkSelf(fs, stdout, o);
      assert Captured(entries[..0], dir) == [];
      ghost var content := base;
      var i := 0;
      while i < |entries|
        invariant 0 <= i <= |entries|
        invariant Writable(fs, o) && td in fs && fs[td] == dir
        invariant forall k | 0 <= k < i :: Transferable(entries[k], os)
        invariant content == base + Captured(entries[..i], dir)
        invariant (fs, stdout) == SetSink(fs0, out0, o, content)
      {
        var e := entries[i];
        assert entries[..i + 1][..i] == entries[..i];
        assert Captured(entries[..i + 1], dir) == Captured(entries[..i], dir) + Piece(e, dir);
        if e != StagedName {
          if e in os.unreadable {
            r, written := Fail(ReadFileFailed(e)), i;
            return;
          }
          var b := fs[td][e];
          if e in os.unwritable {
            r, written := Fail(WriteFailed(e)), i;
            return;
          }
          SetSinkTwice(fs0, out0, o, content, content + b);
          Write(o, b);
          content := content + b;
        }
        i := i + 1;
      }
      assert entries[..i] == entries;
      r, written := Pass, i;
    }

    /** runAndCapture: MkdirTemp, then the work in the directory, then the
        deferred RemoveAll, which runs (and is modelled as succeeding) on every
        return path past MkdirTemp. */
    method RunAndCapture(o: Target, staged: Option<Bytes>, engine: Engine, os: Os)
      returns (r: Outcome, ghost listing: seq<string>, ghost written: nat)
      requires Writable(fs, o)
      requires os.tempDir.Some? ==> os.tempDir.value !in fs
      modifies this
      ensures SetupError(staged, engine, os).Some? ==>
                r == Fail(SetupError(staged, engine, os).value) && fs == old(fs) && stdout == old(stdout)
      ensures SetupError(staged, engine, os).None? ==>
                var dir := AfterRun(staged.value, engine(staged.value));
                && IsListing(listing, dir.Keys)
                && MergeVerdict(listing, written, os, r)
                && (fs, stdout) == SetSink(old(fs), old(stdout), o, old(SinkOf(fs, stdout, o)) + Captured(listing[..written], dir))
    {
      if os.tempDir.None? {
        r, listing, written := Fail(MkdirTempFailed), [], 0;
        return;
      }
      var td := os.tempDir.value;
      fs := fs[td := map[]];
      assert old(fs) == fs - {td};
      assert SinkOf(fs, stdout, o) == old(SinkOf(fs, stdout, o));
      r, listing, written := InSandbox(o, td, staged, engine, os);
      fs := fs - {td};
    }

    /** The body of runAndCapture between MkdirTemp and the return: create
        the staged file, encode into it, run the engine, list and merge. */
    method InSandbox(o: Target, td: string, staged: Option<Bytes>, engine: Engine, os: Os)
      returns (r: Outcome, ghost listing: seq<string>, ghost written: nat)
      requires Writable(fs, o) && td in fs && fs[td] == map[]
      requires o.File? ==> o.dir != td
      requires os.tempDir.Some?
      modifies this
      ensures td in fs
      ensures SetupError(staged, engine, os).Some? ==> r == Fail(SetupError(staged, engine, os).value)
      ensures SetupError(staged, engine, os).Some? ==> fs - {td} == old(fs) - {td} && stdout == old(stdout)
      ensures SetupError(staged, engine, os).None? ==>
                IsListing(listing, AfterRun(staged.value, engine(staged.value)).Keys)
      ensures SetupError(staged, engine, os).None? ==> MergeVerdict(listing, written, os, r)
      ensures SetupError(staged, engine, os).None? ==>
                (fs - {td}, stdout) == SetSink(old(fs) - {td}, old(stdout), o,
                                               old(SinkOf(fs, stdout, o)) + Captured(listing[..written], AfterRun(staged.value, engine(staged.value))))
    {
      listing, written := [], 0;
      if os.createTempFails {
        r := Fail(CreateFailed);
        return;
      }
      ReplaceInside(old(fs), td, map[StagedName := []]);
      fs := fs[td := map[StagedName := []]];
      if staged.None? {
        r := Fail(EncodeFailed);
        return;
      }
      var run := engine(staged.value);
      ReplaceInside(old(fs), td, AfterRun(staged.value, run));
      fs := fs[td := AfterRun(staged.value, run)];
      if !run.ok {
        r := Fail(EngineFailed);
        return;
      }
      if os.readDirFails {
        r := Fail(ReadDirFailed);
        return;
      }
      assert fs - {td} == old(fs) - {td} && SinkOf(fs, stdout, o) == old(SinkOf(fs, stdout, o));
      r, listing, written := Capture(o, td, os);
    }

    /** The end of runAndCapture: os.ReadDir of the temporary directory,
        then the merge of its entries into `o`. */
    method Capture(o: Target, td: string, os: Os) returns (r: Outcome, ghost listing: seq<string>, ghost written: nat)
      requires Writable(fs, o) && td in fs
      requires o.File? ==> o.dir != td
      modifies this
      ensures td in fs
      ensures IsListing(listing, old(fs[td]).Keys)
      ensures MergeVerdict(listing, written, os, r)
      ensures (fs - {td}, stdout) == SetSink(old(fs) - {td}, old(stdout), o, old(SinkOf(fs, stdout, o)) + Captured(listing[..written], old(fs[td])))
    {
      var entries := ReadDir(fs[td]);
      listing := entries;
      r, written := Merge(o, td, entries, os);
      SetSinkOutside(old(fs), old(stdout), o, old(SinkOf(fs, stdout, o)) + Captured(listing[..written], old(fs[td])), td);
    }
  }
}

=== FILE: tokenizer.dfy ===
/** The line tokenizer `argsListFromStdin`: every input line becomes one
    step holding the whole line, split as bufio.ScanLines splits. */
module Tokenizer {

  const LF: char := '\n'
  const CR: char := '\r'

  /** The line with one trailing carriage return removed. */
  function DropCR(line: string): string
  {
    if |line| > 0 && line[|line| - 1] == CR then line[..|line| - 1] else line
  }

  /** Offset of the first line feed at or after `pos`, or `|s|` when there is none. */
  function LineEnd(s: string, pos: nat): (e: nat)
    requires pos <= |s|
    ensures pos <= e <= |s|
    ensures e < |s| ==> s[e] == LF
    decreases |s| - pos
  {
    if pos == |s| || s[pos] == LF then pos else LineEnd(s, pos + 1)
  }

  /** No line feed comes before `LineEnd`. */
  lemma {:induction false} LineEndClear(s: string, pos: nat)
    requires pos <= |s|
    ensures forall j | pos <= j < LineEnd(s, pos) :: s[j] != LF
    decreases |s| - pos
  {
    if pos < |s| && s[pos] != LF {
      LineEndClear(s, pos + 1);
    }
  }

  /** Where scanning resumes after a token that ends at `e`: past the line
      feed, or at the end of the input. */
  function Resume(s: string, e: nat): nat
  {
    if e < |s| then e + 1 else |s|
  }

  /** The token that starts at `pos`: the text up to the next line feed,
      without a trailing carriage return. */
  function Token(s: string, pos: nat): string
    requires pos < |s|
  {
    DropCR(s[pos..LineEnd(s, pos)])
  }

  /** Where scanning goes on after the token that starts at `pos`. */
  function Next(s: string, pos: nat): (n: nat)
    requires pos < |s|
    ensures pos < n <= |s|
  {
    Resume(s, LineEnd(s, pos))
  }

  /** The tokens bufio.ScanLines yields for `s` from offset `pos` on: the
      text before each line feed, and the unterminated rest when it is not
      empty, each without a trailing carriage return. */
  function ScanFrom(s: string, pos: nat): seq<string>
    requires pos <= |s|
    decreases |s| - pos
  {
    if pos == |s| then [] else [Token(s, pos)] + ScanFrom(s, Next(s, pos))
  }

  /** The tokens of the whole input. */
  function ScanLines(s: string): (r: seq<string>)
    ensures r == [] <==> s == []
  {
    ScanFrom(s, 0)
  }

  /** A line that reads back as itself: no line feed, no trailing carriage return. */
  predicate PlainLine(line: string)
  {
    LF !in line && (line == [] || line[|line| - 1] != CR)
  }

  /** The lines, each followed by a line feed. */
  function Terminated(lines: seq<string>): string
  {
    if lines == [] then [] else lines[0] + [LF] + Terminated(lines[1..])
  }

  /** One step per line: `[line]`, never split on spaces. */
  function Singletons(lines: seq<string>): (al: seq<seq<string>>)
    ensures |al| == |lines|
    ensures forall k | 0 <= k < |al| :: al[k] == [lines[k]]
  {
    if lines == [] then [] else [[lines[0]]] + Singletons(lines[1..])
  }

  /** `t` ends with `s`, which starts at offset `d` of it. */
  predicate EndsWith(t: string, s: string, d: nat)
  {
    d + |s| == |t| && forall i | 0 <= i < |s| :: t[d + i] == s[i]
  }

  /** Line ends do not depend on what comes before the scan position. */
  lemma {:induction false} LineEndShift(t: string, s: string, d: nat, pos: nat)
    requires EndsWith(t, s, d) && pos <= |s|
    ensures LineEnd(t, d + pos) == d + LineEnd(s, pos)
    decreases |s| - pos
  {
    if pos < |s| && s[pos] != LF {
      LineEndShift(t, s, d, pos + 1);
    }
  }

  /** The first token and the resume offset, seen past a prefix. */
  lemma TokenShift(t: string, s: string, d: nat, pos: nat)
    requires EndsWith(t, s, d) && pos < |s|
    ensures Token(t, d + pos) == Token(s, pos)
    ensures Next(t, d + pos) == d + Next(s, pos)
  {
    LineEndShift(t, s, d, pos);
    var e := LineEnd(s, pos);
    assert t[d + pos..d + e] == s[pos..e];
  }

  /** Scanning does not depend on what comes before the scan position. */
  lemma {:induction false} ScanFromShift(t: string, s: string, d: nat, pos: nat)
    requires EndsWith(t, s, d) && pos <= |s|
    ensures ScanFrom(t, d + pos) == ScanFrom(s, pos)
    decreases |s| - pos
  {
    if pos < |s| {
      TokenShift(t, s, d, pos);
      ScanFromShift(t, s, d, Next(s, pos));
    }
  }

  /** The number of line feeds in `s` from offset `pos` on. */
  function LineFeedsFrom(s: string, pos: nat): nat
    requires pos <= |s|
    decreases |s| - pos
  {
    if pos == |s| then 0 else (if s[pos] == LF then 1 else 0) + LineFeedsFrom(s, pos + 1)
  }

  /** The number of line feeds in `s`. */
  function LineFeeds(s: string): nat
  {
    LineFeedsFrom(s, 0)
  }

  /** Counting from `pos` across a line-feed-free stretch ended by the line
      feed at `e` counts that one line feed and what follows it. */
  lemma {:induction false} LineFeedsAt(s: string, pos: nat, e: nat)
    requires pos <= e < |s| && s[e] == LF
    requires forall j | pos <= j < e :: s[j] != LF
    ensures LineFeedsFrom(s, pos) == 1 + LineFeedsFrom(s, e + 1)
    decreases e - pos
  {
    if pos < e {
      LineFeedsAt(s, pos + 1, e);
    }
  }

  /** No line feed from `pos` on counts none. */
  lemma {:induction false} NoLineFeeds(s: string, pos: nat)
    requires pos <= |s|
    requires forall j | pos <= j < |s| :: s[j] != LF
    ensures LineFeedsFrom(s, pos) == 0
    decreases |s| - pos
  {
    if pos < |s| {
      NoLineFeeds(s, pos + 1);
    }
  }

  /** One entry per line feed, plus one for a final unterminated line;
      empty input gives no entry. */
  lemma {:induction false} ScanFromCount(s: string, pos: nat)
    requires pos <= |s|
    ensures |ScanFrom(s, pos)| == LineFeedsFrom(s, pos) + (if pos < |s| && s[|s| - 1] != LF then 1 else 0)
    decreases |s| - pos
  {
    if pos < |s| {
      var e := LineEnd(s, pos);
      LineEndClear(s, pos);
      assert |ScanFrom(s, pos)| == 1 + |ScanFrom(s, Resume(s, e))|;
      if e < |s| {
        ScanFromCount(s, e + 1);
        LineFeedsAt(s, pos, e);
      } else {
        NoLineFeeds(s, pos);
      }
    }
  }

  lemma ScanLinesCount(s: string)
    ensures |ScanLines(s)| == LineFeeds(s) + (if s != [] && s[|s| - 1] != LF then 1 else 0)
  {
    ScanFromCount(s, 0);
  }

  /** No token contains a line feed. */
  lemma {:induction false} ScanFromHasNoLineFeed(s: string, pos: nat)
    requires pos <= |s|
    ensures forall k | 0 <= k < |ScanFrom(s, pos)| :: LF !in ScanFrom(s, pos)[k]
    decreases |s| - pos
  {
    if pos < |s| {
      var e := LineEnd(s, pos);
      LineEndClear(s, pos);
      ScanFromHasNoLineFeed(s, Resume(s, e));
      assert LF !in s[pos..e];
    }
  }

  /** A line ended by a line feed (or by a carriage return and a line feed)
      yields exactly one token, then scanning goes on after it. */
  lemma ScanLinesLine(line: string, rest: string)
    requires LF !in line
    ensures ScanLines(line + [LF] + rest) == [DropCR(line)] + ScanLines(rest)
    ensures ScanLines(line + [CR, LF] + rest) == [line] + ScanLines(rest)
  {
    LineThenRest(line, rest);
    assert line + [CR, LF] + rest == (line + [CR]) + [LF] + rest;
    LineThenRest(line + [CR], rest);
    assert (line + [CR])[..|line|] == line;
  }

  lemma LineThenRest(line: string, rest: string)
    requires LF !in line
    ensures ScanLines(line + [LF] + rest) == [DropCR(line)] + ScanLines(rest)
  {
    var t := line + [LF] + rest;
    forall j | 0 <= j < |line| ensures t[j] != LF {
      assert t[j] == line[j] && line[j] in line;
    }
    LineEndIs(t, 0, |line|);
    assert t[0..|line|] == line;
    assert EndsWith(t, rest, |line| + 1);
    ScanFromShift(t, rest, |line| + 1, 0);
  }

  /** A non-empty last line with no line feed is one token. */
  lemma LastLine(last: string)
    requires PlainLine(last) && last != []
    ensures ScanLines(last) == [last]
  {
    forall j | 0 <= j < |last| ensures last[j] != LF {
      assert last[j] in last;
    }
    LineEndIs(last, 0, |last|);
    assert last[0..|last|] == last;
    assert DropCR(last) == last;
    assert ScanFrom(last, |last|) == [];
  }

  /** Round trip: scanning lines that were each terminated by a line feed
      gives the lines back, and a final unterminated non-empty line still
      yields its own entry. */
  lemma {:induction false} ScanLinesRoundTrip(lines: seq<string>, last: string)
    requires forall k | 0 <= k < |lines| :: PlainLine(lines[k])
    requires PlainLine(last)
    ensures ScanLines(Terminated(lines)) == lines
    ensures last != [] ==> ScanLines(Terminated(lines) + last) == lines + [last]
  {
    if lines == [] {
      if last != [] {
        assert Terminated(lines) + last == last;
        LastLine(last);
      }
    } else {
      var tail := Terminated(lines[1..]);
      ScanLinesRoundTrip(lines[1..], last);
      assert DropCR(lines[0]) == lines[0];
      LineThenRest(lines[0], tail);
      assert lines == [lines[0]] + lines[1..];
      if last != [] {
        assert Terminated(lines) + last == lines[0] + [LF] + (tail + last);
        LineThenRest(lines[0], tail + last);
      }
    }
  }

  /** `LineEnd` is the only offset with its three properties. */
  lemma {:induction false} LineEndIs(s: string, pos: nat, e: nat)
    requires pos <= e <= |s|
    requires e < |s| ==> s[e] == LF
    requires forall j | pos <= j < e :: s[j] != LF
    ensures LineEnd(s, pos) == e
    decreases e - pos
  {
    if pos < e {
      LineEndIs(s, pos + 1, e);
    }
  }

  /** One scanning step: the token ending at `e`, then the rest. */
  lemma ScanFromAt(s: string, pos: nat, e: nat, done: seq<string>)
    requires pos < |s| && pos <= e <= |s|
    requires e < |s| ==> s[e] == LF
    requires forall j | pos <= j < e :: s[j] != LF
    requires ScanLines(s) == done + ScanFrom(s, pos)
    ensures ScanLines(s) == (done + [DropCR(s[pos..e])]) + ScanFrom(s, Resume(s, e))
  {
    LineEndIs(s, pos, e);
  }

  /** argsListFromStdin: grows the step list one scanned line at a time. */
  method ArgsListFromStdin(input: string) returns (al: seq<seq<string>>)
    ensures al == Singletons(ScanLines(input))
  {
    al := [];
    ghost var done: seq<string> := [];
    var pos := 0;
    while pos < |input|
      invariant 0 <= pos <= |input|
      invariant ScanLines(input) == done + ScanFrom(input, pos)
      invariant al == Singletons(done)
    {
      var end := pos;
      while end < |input| && input[end] != LF
        invariant pos <= end <= |input|
        invariant forall j | pos <= j < end :: input[j] != LF
      {
        end := end + 1;
      }
      var token := DropCR(input[pos..end]);
      ScanFromAt(input, pos, end, done);
      SingletonsAppend(done, token);
      al := al + [[token]];
      done := done + [token];
      pos := Resume(input, end);
    }
  }

  lemma SingletonsAppend(lines: seq<string>, line: string)
    ensures Singletons(lines + [line]) == Singletons(lines) + [[line]]
  {
    var a := Singletons(lines + [line]);
    var b := Singletons(lines) + [[line]];
    assert |a| == |b|;
    forall k | 0 <= k < |a| ensures a[k] == b[k] {
      if k < |lines| { assert (lines + [line])[k] == lines[k]; }
    }
  }
}

=== FILE: types.dfy ===
/** Values shared by every part of the `new`/`append` command model:
    bytes, the abstract filesystem, error values and the answers the
    operating system gives. */
module Types {

  newtype byte = x: int | 0 <= x < 256

  type Bytes = seq<byte>

  /** The contents of one directory: file name to file contents. */
  type Dir = map<string, Bytes>

  /** The filesystem: directory path to its contents. */
  type FileSystem = map<string, Dir>

  datatype Option<T> = None | Some(value: T)

  /** Where the command writes: standard output (an empty `--out`) or a file. */
  datatype Target = Stdout | File(dir: string, name: string)

  /** The errors the command can return, one per failing call of the source. */
  datatype Error =
    | Usage(message: string)          // interactive mode refused
    | OpenFailed                      // os.Open of the existing --out file
    | ParseFailed                     // runn.ParseRunbook
    | InvalidStep(args: seq<string>)  // rb.AppendStep
    | CreateFailed                    // os.Create of --out or of the staged file
    | EncodeFailed                    // the yaml encoder, or its write to the output
    | MkdirTempFailed                 // os.MkdirTemp
    | EngineFailed                    // runn.New or oo.Run
    | ReadDirFailed                   // os.ReadDir of the temp dir
    | ReadFileFailed(name: string)    // os.ReadFile of one captured entry
    | WriteFailed(name: string)       // o.Write of one captured entry's bytes

  datatype Outcome = Pass | Fail(error: Error)

  datatype Result<T> = Ok(value: T) | Err(error: Error)

  /** What the operating system answers to the calls the command makes.
      `tempDir` is the name os.MkdirTemp picks (None when it fails);
      `unreadable` and `unwritable` name the captured entries whose
      os.ReadFile, respectively whose write to the output, fails. */
  datatype Os = Os(
    openFails: bool,
    createFails: bool,
    tempDir: Option<string>,
    createTempFails: bool,
    readDirFails: bool,
    unreadable: set<string>,
    unwritable: set<string>)
}
